=== FILE: README.md ===
# UDP tracker client: a Dafny model

This project models the tracker side of a small BitTorrent client. The
client speaks the UDP tracker protocol. It sends a 16-byte connect
request, which carries the magic connection id 0x41727101980. It checks
the tracker's reply. It then sends a 98-byte announce request carrying the
connection id it was given, and reads the peer list out of the announce
reply. The session that drives this exchange stops at the first negative
status. It then opens one connection per peer and, on every turn of its
event loop, marks the peers with pending output as waiting for write.

The modules are:

- `Wrappers`: `Option`.
- `BigEndian`: big-endian unsigned and two's-complement byte strings, with
  both round trips.
- `Struct`: the part of Python's `struct` module the client uses. It covers
  the codes `h`, `i` and `q` the client uses, and the `H` of the documented
  peer record read by the corrected parser, all in network byte order. `Pack` and `Unpack`
  return `None` where `struct` raises. `Slice` gives Python's clamping
  slice semantics.
- `TrackerClient`: `Client.__init__`, the two request builders,
  `check_packet`, `get_peers` and `generate_random_32_bit_int`. It also has
  reply encoders, which exist only to state round trips.
- `PeerLoopAsWritten`: the peer loop of `get_peers` exactly as written,
  for the findings below.
- `Retry`: the `backoff` decorator.
- `Session`: the connect→announce gating of `get_torrent`, the peer set-up
  and the write-interest update.

How the model represents the source:

- A byte is an `int` in 0..255, and a byte string is a `seq<byte>`.
- Randomness is a parameter. `generate_random_32_bit_int` reads 31 given
  bits, and `os.urandom(20)` is a given 20-byte peer id.
- The sockets are parameters too. A reply is the bytes the tracker
  returned.
- An exception that escapes is an explicit outcome (`Raised`,
  `RaisesStructError`, `Propagated`).

Python 2 semantics that the model keeps:

- **Exceptions.** `struct.error` is not a `ValueError`. The `try`/`except
  ValueError` in `pack_packet` and `unpack_packet` therefore never catches
  a short reply or an out-of-range value. The error escapes to the caller.
- **Comparisons.** `check_status` tests `status < 0`. In Python 2, `None <
  0` is true and a list compares greater than any number. So `-1`, the
  `None` that `get_peers` returns for a short reply, and the `None` that
  follows an error reply all abort. `0` and a peer list (even an empty one)
  go on (`Session.Aborts`).
- **The connect reply.** `check_packet` unpacks the connection id from
  `response[8:]` with `'>q'`, so a connect reply must be exactly 16 bytes.
  Any other length raises.
- **`xrange()`.** A negative seeder count reads no peers.

The model follows the code, except that `TrackerClient.GetPeers` reads the
peer records as their doc-comment documents them: 6-byte records holding
a signed int32 address and a uint16 port, never more than the reply
holds. The loop as written (8-byte slices read with `'>ii'`, run for the
declared seeder count) is `PeerLoopAsWritten`; see Findings.

## Model

| member | source | states |
|---|---|---|
| TrackerClient.Init | client.py:19-23 | A new client holds the magic connection id 0x41727101980 and the given 20-byte peer id. Its transaction id and key are 31-bit random values. The state it builds is valid: every field fits the request field that carries it. |
| TrackerClient.GenerateRandom31 | client.py:188-189 | `getrandbits(31)` is never negative and is below 2^31, so it always fits a signed int32 field. |
| TrackerClient.FromBitsToBits | client.py:188-189 | Every value below 2^n comes out of the bit string that spells it in binary, so the generator can yield every 31-bit value. |
| TrackerClient.MakeConnectionPacket | client.py:50-59 | The connect request is 16 bytes. Its bytes 0-7 decode to the client's connection id, bytes 8-11 to action 0, and bytes 12-15 to the current transaction id. |
| TrackerClient.MakeAnnouncePacket | client.py:99-150 | A fresh transaction id is drawn first, and everything else in the client stays the same. A packet exists exactly when the total length fits an int64. It is then the 98-byte announce request, field by field: the connection id, action 1, the new transaction id, the info hash at 16-35, the peer id at 36-55, downloaded 0, left = total length, uploaded 0, event 0, ip 0, the key, num_want -1 and port 6881. |
| TrackerClient.PackAnnounce | client.py:131-150 | The two `struct` halves plus the info hash and peer id make the announce layout whenever the length fits an int64. When it does not, no packet is made. |
| TrackerClient.AnnouncePacks | client.py:131-144 | The `'>qii'` preamble always packs for a valid client. The `'>qqqiiiih'` tail packs exactly when `left` fits an int64. |
| TrackerClient.CheckPacket | client.py:70-97 | A reply is rejected with -1 and the state untouched in two cases: its action is neither the one sent nor 3, or its transaction id differs. "Connected" holds exactly for a 16-byte connect reply to a connect request with matching action and transaction id, and it installs bytes 8-15 as the connection id. The announce path holds exactly for a matching announce reply of at least 8 bytes and returns `get_peers`' result. The error path holds exactly for a matching action-3 reply. `struct.error` escapes exactly in three cases: a reply under 4 bytes; a 4-7 byte reply whose action passes the action check; or, after a connect request, a connect reply with the matching transaction id whose length is not 16 (with the corrected get_peers; see Findings). Validity of the client is preserved. |
| TrackerClient.UnpackField | client.py:72 | `unpack('>i', response[off:off+4])[0]` succeeds exactly when the 4 bytes are all present, and then gives the field at that offset. A clamped short slice raises. |
| TrackerClient.UnpackTail | client.py:87 | `unpack('>q', response[8:])[0]` succeeds exactly when the rest of the reply is one 8-byte field. |
| TrackerClient.CheckTransaction | client.py:78-84 | Once the action passes: a reply under 8 bytes raises, a transaction id other than the client's gives -1 with the state untouched, and a matching one goes on to the dispatch on the action. |
| TrackerClient.Dispatch | client.py:85-97 | The four dispatch branches: action 0 replaces the connection id, and raises exactly when the reply is not 16 bytes, action 1 hands the reply to `get_peers`, action 3 goes to the error parser, and anything else returns -1. Only the connect branch changes the client. |
| TrackerClient.GetPeers | client.py:165-178 | A reply shorter than 20 bytes gives `None`. Otherwise interval, leechers and seeders are the int32 fields at bytes 8, 12 and 16. The peer list holds the declared number of seeders, clamped to zero from below and to the whole 6-byte records present from above. Peer n is decoded from bytes 20+6n to 25+6n, in order. |
| TrackerClient.ParsePeers | client.py:173-177 | Parsing `count` records yields min(count, whole records) peers. |
| TrackerClient.ParsePeersAt | client.py:173-177 | Peer n of the parsed list is the decoding of record n, so order is preserved. |
| TrackerClient.DecodePeer | client.py:162-163 | A record's address is the int32 at its offset 0 and its port the uint16 at offset 4. |
| TrackerClient.DecodeEncodePeer | client.py:162-163 | Decoding an encoded peer record gives the peer back. |
| TrackerClient.ParseEncodePeers | client.py:173-177 | Parsing encoded records with a count at least the number encoded gives every peer back. |
| TrackerClient.GetPeersRoundTrip | client.py:152-178 | For every well-formed announce reply, `get_peers` of its bytes gives back exactly its interval, leechers, seeders and peers. |
| TrackerClient.ConnectReplyAccepted | client.py:78-89 | A connect reply with the client's transaction id is accepted and installs the tracker's connection id. Nothing else changes. |
| TrackerClient.ConnectReplyWrongTransaction | client.py:78-82 | A connect reply with any other transaction id gives -1 and leaves the client unchanged. |
| TrackerClient.AnnounceReplyAccepted | client.py:90-92 | A well-formed announce reply with the client's transaction id yields exactly its peers, and the state is unchanged. |
| TrackerClient.ErrorReplyReported | client.py:74-94 | An error reply (action 3) with the client's transaction id passes the action check whatever was sent, and is reported as a tracker error. |
| TrackerClient.FirstField | client.py:72-78 | Unpacking one field from a slice succeeds exactly when the slice is whole. |
| Struct.Pack | client.py:191-196 | `struct.pack` succeeds exactly when there is one value per code and each value is in its code's range. The result is `calcsize` bytes long. |
| Struct.Unpack | client.py:199-205 | `struct.unpack` succeeds exactly when the packet is `calcsize` bytes long. Each value is in its code's range. |
| Struct.UnpackPack | client.py:191-205 | Unpacking a packed packet gives the packed values back. |
| Struct.PackUnpack | client.py:191-205 | Packing unpacked values gives the same bytes back. |
| Struct.PackedFieldAt | client.py:58 | Value i of a packed format sits at the format's byte offset for i and decodes to the value packed. |
| Struct.DecodeEncodeField | client.py:58 | Each code's big-endian field decodes to the value encoded. |
| Struct.EncodeDecodeField | client.py:72 | Each code's big-endian field re-encodes to the same bytes. |
| Struct.Slice | client.py:72 | Python slicing clamps: the length is min(hi, len) - lo (or 0), and element k is element lo + k. |
| BigEndian.DecodeEncodeSigned | client.py:58 | Two's-complement big-endian round trip, value side. |
| BigEndian.EncodeDecodeSigned | client.py:72 | Two's-complement big-endian round trip, byte side. |
| BigEndian.DecodeEncodeUnsigned | client.py:162-163 | Unsigned big-endian round trip, value side (the documented uint16 peer port). |
| BigEndian.EncodeDecodeUnsigned | client.py:162-163 | Unsigned big-endian round trip, byte side (the documented uint16 peer port). |
| Retry.Backoff | client.py:25-37 | The decorated call makes 1 to 8 calls, all eight when it gives up, and sleeps once after each caught `socket.error`. It gives up (returns `None`) exactly when all eight raise `socket.error`. Otherwise every call before the last raised `socket.error` and the last did not: a value it returned is the result, and any other exception escapes. |
| Retry.BackoffFrom | client.py:27-36 | From iteration n on: one one-second sleep per caught `socket.error`, and any other exception escapes at once. |
| Retry.FailThenSucceed | client.py:27-36 | k < 8 failures followed by a value give k+1 calls, k sleeps and that value. |
| Retry.AlwaysFails | client.py:27-37 | Eight failures give eight calls, eight sleeps and `None`. |
| PeerLoopAsWritten.LoopFrom | client.py:173-177 | Iterations n to count-1 of the loop as written. When none of them raises, it appends exactly one pair per iteration (count - n pairs). |
| PeerLoopAsWritten.LoopPairs | client.py:173-177 | When the loop does not raise, its pairs are read in order from slices n, n+1, …, and the pair of slice m is the two int32 fields at bytes 20+6m and 24+6m. |
| PeerLoopAsWritten.GetPeersAsWritten | client.py:165-178 | `get_peers` as written: `None` exactly below 20 bytes. It raises exactly when the seeder count at byte 16 is positive and the reply holds fewer than 6·seeders + 22 bytes. Otherwise it returns max(seeders, 0) pairs, read from 8-byte slices at stride 6. |
| PeerLoopAsWritten.LoopRaisesIff | client.py:173-177 | The loop as written raises exactly when the reply holds fewer than 6·count + 22 bytes. |
| PeerLoopAsWritten.WellFormedReplyRaises | client.py:173-177 | Every well-formed reply listing its seeders makes the loop as written raise. |
| PeerLoopAsWritten.DeclaredCountBeyondRecordsRaises | client.py:173 | A reply declaring more seeders than its records makes the loop as written raise. |
| Session.GetTorrent | session.py:36-43 | The connect request always goes first. A connect status that aborts stops the session after that one request, and a session that stops after a connect that does not abort stops at the announce. Otherwise, when the length fits an int64, the second request is exactly `make_announce_packet` of the client the connect check left behind: the tracker's connection id, the same peer id and key, and the fresh transaction id. After the announce, the session goes on exactly when that check does not abort. It then ends with the announcing client and the peers `check_packet` returned. |
| Session.GetTorrentSucceeds | session.py:36-43 | Against a tracker that answers both requests with well-formed replies carrying the outstanding transaction ids, the session gets through both checks. It ends with the tracker's connection id, the fresh transaction id and exactly the tracker's peer list. |
| Session.Aborts | session.py:98-101 | The statuses `check_status` stops on under Python 2 ordering: -1, `None` and exceptions, never 0 or a peer list. |
| Session.SetUpPeers | session.py:47-52 | One connection per peer, in list order. Each is in waiting_for_read with its handshake scheduled, and waiting_for_write starts empty. |
| Session.AddWriters | session.py:59-62 | waiting_for_write keeps its old contents as a prefix. Afterwards it holds every reading peer with a non-empty out buffer. Each peer added was reading, has output and was not already there, and the peers added are distinct. A duplicate-free list stays duplicate-free. |
| Session.Appended | session.py:60-62 | The peers the loop appends, scanning in order and checking against the growing list. |
| Session.AddedInReadOrder | session.py:60-62 | The added peers are a subsequence of waiting_for_read, so they keep its order. |
| Session.NothingToAdd | session.py:59-62 | When every reading peer with output is already waiting for write, the update changes nothing. |
| Session.AddWritersIdempotent | session.py:59-62 | Running the update twice with the same buffers is the same as running it once. |

## Left out

- Sockets, `select`, `sendto`/`recvfrom` and timeouts: replies are parameters, and `open_socket_with_timeout` and `send_packet_to_tracker` are not modelled.
- Retry.Backoff: `time.sleep(1)` is only counted as a sleep. The prints are not modelled.
- `sys.exit` in `check_status` is the `Aborted` ending of `Session.GetTorrent`.
- `hashlib.sha1` of the bencoded info dictionary: the info hash is a given 20-byte string.
- `random.getrandbits` and `os.urandom`: their bits are parameters.
- `parse_error_packet`: its body is empty. It is also defined as a method but called as a global, so in the source the call itself fails. Both are the `TrackerError` outcome, which aborts the session either way.
- TrackerClient.MakeAnnouncePacket: a total length outside the int64 range makes `struct` raise, which ends `get_torrent`. The model gives no packet and an `Aborted` exchange at the announce stage instead.
- Session.GetTorrent: `get_list_of_peers` and `build_peer` are not defined in client.py, and neither is the `send_packet` that session.py:28 and session.py:33 call on the client (`Client` has only `send_packet_to_tracker`), so as written `get_torrent` stops with an AttributeError before any reply is checked. The model takes each reply as given, as if received through `send_packet_to_tracker`. `Session.SetUpPeers` takes any peer list, and nothing in the model composes it with the peers `Session.GetTorrent` returns. The peer's connect and handshake are bookkeeping only.
- The peer-connection internals (`send_from_out_buffer`, `handle_in_buffer`, `recv`) and the body of the event loop after the write-interest update are not modelled. The model does not say when the loop ends.
- Session.AddWriters: like the source, it never removes a peer from waiting_for_write.
- The `pudb` breakpoint in `get_peers`, all `print` statements, both `main()` functions and the metainfo file parser are not modelled.

## Findings

| source | as written | input that shows it | evidently intended | confidence | as-written member | corrected member |
|---|---|---|---|---|---|---|
| client.py:174-176 | Each peer record is sliced as `response[20+6n : 20+6n+8]` and unpacked with `'>ii'`, 8 bytes for a 6-byte record. | Any well-formed reply with one peer: 26 bytes, seeders = 1. The slice `response[20:28]` holds 6 bytes and `struct.error` escapes. | Unpack `'>iH'` from `response[20+6n : 26+6n]`. | not executed | PeerLoopAsWritten.WellFormedReplyRaises | TrackerClient.GetPeersRoundTrip |
| client.py:173 | The loop runs `num_seeders` times whatever the reply's length. | A 20-byte reply declaring seeders = 1: the slice `response[20:28]` is empty and `struct.error` escapes. | Read only the whole records present. | not executed | PeerLoopAsWritten.DeclaredCountBeyondRecordsRaises | TrackerClient.GetPeers |

=== FILE: aswritten.dfy ===
/**
 * The peer loop of get_peers as the source writes it: record n is sliced
 * as response[20 + 6n : 20 + 6n + 8] and unpacked with '>ii', so each
 * slice is two bytes longer than the 6-byte stride, and the loop runs for
 * the declared seeder count whatever the reply's length. The corrected
 * parser is TrackerClient.GetPeers.
 */
module PeerLoopAsWritten {
  import opened Wrappers
  import opened BigEndian
  import opened Struct
  import TrackerClient

  /** '>ii': the format the loop unpacks each slice with. */
  const SliceFormat: seq<Code> := [Int32, Int32]

  /** What get_peers as written ends with. */
  datatype Result =
    | TooShort                          // fewer than 20 bytes: returns None
    | RaisesStructError                 // a slice is not 8 bytes long: struct.error escapes
    | Parsed(records: seq<(int, int)>)  // the (ip, tcp_port) pairs appended

  /** Where the loop as written starts slice m: 20 + 6m. */
  function SliceStart(m: nat): nat {
    20 + 6 * m
  }

  /**
   * The (ip, tcp_port) pair '>ii' reads from slice m: the two int32
   * fields at its start, or (0, 0) for a slice cut short, which the loop
   * never keeps because unpacking it raises.
   */
  function SlicePair(response: seq<byte>, m: nat): (int, int) {
    var start := SliceStart(m);
    if start + 8 <= |response| then (FieldAt(response, start, Int32), FieldAt(response, start + 4, Int32))
    else (0, 0)
  }

  /** The reply's slices as a function of the iteration number. */
  function Reader(response: seq<byte>): nat -> (int, int) {
    (m: nat) => SlicePair(response, m)
  }

  /** xs holds read(n), read(n + 1), ... in order. */
  predicate ReadsFrom(read: nat -> (int, int), n: nat, xs: seq<(int, int)>)
    decreases |xs|
  {
    |xs| == 0 || (xs[0] == read(n) && ReadsFrom(read, n + 1, xs[1..]))
  }

  /** Element k of such a sequence is read(n + k). */
  lemma {:induction false} ReadsFromAt(read: nat -> (int, int), n: nat, xs: seq<(int, int)>, k: nat)
    requires ReadsFrom(read, n, xs) && k < |xs|
    ensures xs[k] == read(n + k)
    decreases k
  {
    if k > 0 {
      ReadsFromAt(read, n + 1, xs[1..], k - 1);
      assert xs[1..][k - 1] == xs[k];
      assert (n + 1) + (k - 1) == n + k;
    }
  }

  /**
   * Iterations n to count - 1 of the loop: each unpacks its 8-byte slice
   * with '>ii' and appends the pair, and a slice cut short raises.
   */
  function LoopFrom(response: seq<byte>, n: nat, count: nat): (r: Option<seq<(int, int)>>)
    ensures r.Some? ==> |r.value| == if n >= count then 0 else count - n
    decreases count - n
  {
    if n >= count then Some([])
    else
      var start := SliceStart(n);
      match Unpack(SliceFormat, Slice(response, start, start + 8))
      case None => None
      case Some(f) =>
        match LoopFrom(response, n + 1, count)
        case None => None
        case Some(rest) => Some([(f[0], f[1])] + rest)
  }

  /** When no iteration raises, the pairs are those of slices n, n + 1, ... in order. */
  lemma {:induction false} LoopPairs(response: seq<byte>, n: nat, count: nat)
    requires LoopFrom(response, n, count).Some?
    ensures ReadsFrom(Reader(response), n, LoopFrom(response, n, count).value)
    decreases count - n
  {
    if n < count {
      LoopHead(response, n, count);
      LoopPairs(response, n + 1, count);
      var rest := LoopFrom(response, n + 1, count).value;
      var out := [SlicePair(response, n)] + rest;
      assert out[0] == Reader(response)(n);
      assert out[1..] == rest;
    }
  }

  /** A loop that does not raise starts with the pair of slice n. */
  lemma LoopHead(response: seq<byte>, n: nat, count: nat)
    requires n < count && LoopFrom(response, n, count).Some?
    ensures LoopFrom(response, n + 1, count).Some?
    ensures LoopFrom(response, n, count).value == [SlicePair(response, n)] + LoopFrom(response, n + 1, count).value
  {
    SliceRecord(response, n);
  }

  /** A slice '>ii' accepts lies inside the reply and holds the pair of that slice. */
  lemma SliceRecord(response: seq<byte>, m: nat)
    requires Unpack(SliceFormat, Slice(response, SliceStart(m), SliceStart(m) + 8)).Some?
    ensures SliceStart(m) + 8 <= |response|
    ensures var f := Unpack(SliceFormat, Slice(response, SliceStart(m), SliceStart(m) + 8)).value;
      (f[0], f[1]) == SlicePair(response, m)
  {
    var start := SliceStart(m);
    var slice := Slice(response, start, start + 8);
    assert Size(SliceFormat) == 8;
    assert slice == response[start..start + 8];
    UnpackedFieldAt(SliceFormat, slice, 0);
    UnpackedFieldAt(SliceFormat, slice, 1);
    assert Offset(SliceFormat, 1) == 4;
    assert slice[0..4] == response[start..start + 4];
    assert slice[4..8] == response[start + 4..start + 8];
  }

  /**
   * get_peers as written: None below 20 bytes; otherwise the loop over
   * the declared seeder count, which either raises or yields one pair
   * per seeder, pair k read from bytes 20 + 6k to 27 + 6k.
   */
  function GetPeersAsWritten(response: seq<byte>): (r: Result)
    ensures r == TooShort <==> |response| < 20
    ensures r == RaisesStructError <==>
      && |response| >= 20
      && FieldAt(response, 16, Int32) > 0
      && |response| < 6 * FieldAt(response, 16, Int32) + 22
    ensures r.Parsed? ==>
      && |r.records| == Max(FieldAt(response, 16, Int32), 0)
      && forall k :: 0 <= k < |r.records| ==>
           && SliceStart(k) + 8 <= |response|
           && r.records[k] == (FieldAt(response, SliceStart(k), Int32), FieldAt(response, SliceStart(k) + 4, Int32))
  {
    if |response| < 20 then TooShort
    else
      var seeders := FieldAt(response, 16, Int32);
      var count: nat := if seeders < 0 then 0 else seeders;
      LoopRaisesIff(response, 0, count);
      match LoopFrom(response, 0, count)
      case None => RaisesStructError
      case Some(records) =>
        LoopPairs(response, 0, count);
        assert forall k :: 0 <= k < |records| ==> records[k] == SlicePair(response, k) && SliceStart(k) + 8 <= |response| by {
          forall k | 0 <= k < |records| ensures records[k] == SlicePair(response, k) && SliceStart(k) + 8 <= |response| {
            ReadsFromAt(Reader(response), 0, records, k);
          }
        }
        Parsed(records)
  }

  /**
   * The loop raises exactly when its last slice is cut short: when the
   * reply holds fewer than 6 * count + 22 bytes.
   */
  lemma {:induction false} LoopRaisesIff(response: seq<byte>, n: nat, count: nat)
    requires n <= count
    ensures LoopFrom(response, n, count).None? <==> n < count && |response| < 6 * count + 22
    decreases count - n
  {
    if n < count {
      var start := 20 + 6 * n;
      var slice := Slice(response, start, start + 8);
      assert Size(SliceFormat) == 8;
      assert Unpack(SliceFormat, slice).Some? <==> |response| >= start + 8;
      LoopRaisesIff(response, n + 1, count);
    }
  }

  /**
   * Every well-formed announce reply with at least one peer makes the
   * as-written loop raise (its last 6-byte record cannot fill an 8-byte
   * slice), while the corrected parser returns every peer.
   */
  lemma WellFormedReplyRaises(transactionId: int, r: TrackerClient.AnnounceReply)
    requires Fits(Int32, transactionId) && TrackerClient.ValidReply(r)
    requires |r.peers| == r.seeders >= 1
    ensures GetPeersAsWritten(TrackerClient.EncodeAnnounceReply(transactionId, r)) == RaisesStructError
    ensures TrackerClient.GetPeers(TrackerClient.EncodeAnnounceReply(transactionId, r)) == Some(r)
  {
    var response := TrackerClient.EncodeAnnounceReply(transactionId, r);
    TrackerClient.GetPeersRoundTrip(transactionId, r);
    assert FieldAt(response, 16, Int32) == r.seeders;
    LoopRaisesIff(response, 0, r.seeders);
  }

  /**
   * A reply that declares more seeders than the records it carries makes
   * the as-written loop raise, while the corrected parser returns the
   * whole records present.
   */
  lemma DeclaredCountBeyondRecordsRaises(response: seq<byte>)
    requires |response| >= 20
    requires FieldAt(response, 16, Int32) > (|response| - 20) / 6
    ensures GetPeersAsWritten(response) == RaisesStructError
    ensures TrackerClient.GetPeers(response).Some?
    ensures |TrackerClient.GetPeers(response).value.peers| == (|response| - 20) / 6
  {
    LoopRaisesIff(response, 0, FieldAt(response, 16, Int32));
  }
}

=== FILE: bigendian.dfy ===
/**
 * Network byte order (big-endian) encoding of fixed-width integers, the
 * representation behind every '>' format string of the tracker client.
 */
module BigEndian {

  type byte = b: int | 0 <= b < 256

  /** 256^n: the number of values an n-byte field can hold. */
  function Pow256(n: nat): (p: nat)
    ensures p >= 1
    ensures n >= 1 ==> p % 2 == 0
  {
    if n == 0 then 1 else 256 * Pow256(n - 1)
  }

  /** The n-byte big-endian encoding of an unsigned value. */
  function EncodeUnsigned(v: nat, n: nat): (s: seq<byte>)
    requires v < Pow256(n)
    ensures |s| == n
  {
    if n == 0 then []
    else
      assert v / 256 < Pow256(n - 1) by { DivBound(v, Pow256(n - 1)); }
      EncodeUnsigned(v / 256, n - 1) + [v % 256]
  }

  /** The unsigned value a big-endian byte string denotes. */
  function DecodeUnsigned(s: seq<byte>): (v: nat)
    ensures v < Pow256(|s|)
  {
    if |s| == 0 then 0
    else
      var hi := DecodeUnsigned(s[..|s| - 1]);
      MulAddBound(hi, s[|s| - 1], Pow256(|s| - 1));
      hi * 256 + s[|s| - 1]
  }

  lemma DivBound(v: nat, p: nat)
    requires v < 256 * p
    ensures v / 256 < p
  {
  }

  lemma MulAddBound(hi: nat, lo: byte, p: nat)
    requires hi < p
    ensures hi * 256 + lo < 256 * p
  {
  }

  /** Decoding an encoding gives the encoded value back. */
  lemma {:induction false} DecodeEncodeUnsigned(v: nat, n: nat)
    requires v < Pow256(n)
    ensures DecodeUnsigned(EncodeUnsigned(v, n)) == v
  {
    if n > 0 {
      DivBound(v, Pow256(n - 1));
      var s := EncodeUnsigned(v, n);
      assert s[..n - 1] == EncodeUnsigned(v / 256, n - 1);
      DecodeEncodeUnsigned(v / 256, n - 1);
    }
  }

  /** Encoding a decoded byte string gives the same bytes back. */
  lemma {:induction false} EncodeDecodeUnsigned(s: seq<byte>)
    ensures EncodeUnsigned(DecodeUnsigned(s), |s|) == s
  {
    if |s| > 0 {
      var init := s[..|s| - 1];
      var v := DecodeUnsigned(s);
      assert v / 256 == DecodeUnsigned(init) && v % 256 == s[|s| - 1];
      EncodeDecodeUnsigned(init);
      assert s == init + [s[|s| - 1]];
    }
  }

  /** A value fits a two's-complement field of n bytes. */
  predicate FitsSigned(v: int, n: nat) {
    -(Pow256(n) / 2) <= v < Pow256(n) / 2
  }

  /** The n-byte big-endian two's-complement encoding of a signed value. */
  function EncodeSigned(v: int, n: nat): (s: seq<byte>)
    requires FitsSigned(v, n)
    ensures |s| == n
  {
    EncodeUnsigned(if v < 0 then v + Pow256(n) else v, n)
  }

  /** The signed value a big-endian two's-complement byte string denotes. */
  function DecodeSigned(s: seq<byte>): (v: int)
    requires |s| > 0
    ensures FitsSigned(v, |s|)
  {
    var u := DecodeUnsigned(s);
    if u < Pow256(|s|) / 2 then u else u - Pow256(|s|)
  }

  /** Signed round trip, value side. */
  lemma DecodeEncodeSigned(v: int, n: nat)
    requires FitsSigned(v, n)
    ensures DecodeSigned(EncodeSigned(v, n)) == v
  {
    DecodeEncodeUnsigned(if v < 0 then v + Pow256(n) else v, n);
  }

  /** Signed round trip, byte side. */
  lemma EncodeDecodeSigned(s: seq<byte>)
    requires |s| > 0
    ensures EncodeSigned(DecodeSigned(s), |s|) == s
  {
    EncodeDecodeUnsigned(s);
  }
}

=== FILE: client.dfy ===
/**
 * The UDP tracker client (BEP 15, the UDP Tracker Protocol): its state,
 * the connect and announce request builders, the response checker and
 * the announce-reply peer-list parser.
 */
module TrackerClient {
  import opened Wrappers
  import opened BigEndian
  import opened Struct

  /** The protocol magic every client starts with as its connection id. */
  const InitialConnectionId: int := 0x41727101980
  const ConnectAction: int := 0
  const AnnounceAction: int := 1
  const ErrorAction: int := 3
  /** The port the client announces it listens on. */
  const ListenPort: int := 6881
  /** num_want = -1 asks the tracker for its default number of peers. */
  const DefaultNumWant: int := -1

  // ---------------------------------------------------------------------
  // Randomness: random.getrandbits(31), given the bits drawn

  function Pow2(n: nat): (p: nat)
    ensures p >= 1
  {
    if n == 0 then 1 else 2 * Pow2(n - 1)
  }

  /** The integer whose binary digits, most significant first, are bits. */
  function FromBits(bits: seq<bool>): (v: nat)
    ensures v < Pow2(|bits|)
  {
    if |bits| == 0 then 0
    else 2 * FromBits(bits[..|bits| - 1]) + (if bits[|bits| - 1] then 1 else 0)
  }

  /** The n binary digits of v, most significant first. */
  function ToBits(v: nat, n: nat): (bits: seq<bool>)
    requires v < Pow2(n)
    ensures |bits| == n
  {
    if n == 0 then [] else ToBits(v / 2, n - 1) + [v % 2 == 1]
  }

  /** Every value below 2^n is drawn by exactly the bits ToBits gives. */
  lemma {:induction false} FromBitsToBits(v: nat, n: nat)
    requires v < Pow2(n)
    ensures FromBits(ToBits(v, n)) == v
  {
    if n > 0 {
      var bits := ToBits(v, n);
      assert bits[..n - 1] == ToBits(v / 2, n - 1);
      FromBitsToBits(v / 2, n - 1);
    }
  }

  lemma Pow2Of31()
    ensures Pow2(31) == 0x8000_0000
  {
    assert Pow2(8) == 256;
    assert Pow2(16) == 65536;
    assert Pow2(24) == 16777216;
    assert Pow2(31) == 2147483648;
  }

  /** A value generate_random_32_bit_int can return. */
  predicate IsRandom31(v: int) {
    0 <= v < 0x8000_0000
  }

  /** generate_random_32_bit_int: 31 random bits, so never negative and below 2^31. */
  function GenerateRandom31(bits: seq<bool>): (v: int)
    requires |bits| == 31
    ensures IsRandom31(v)
  {
    Pow2Of31();
    FromBits(bits)
  }

  // ---------------------------------------------------------------------
  // Client state

  /** The fields Client.__init__ sets up; only connectionId and transactionId ever change. */
  datatype Client = Client(connectionId: int, transactionId: int, peerId: seq<byte>, key: int)

  /** What every client state satisfies: each field fits the request field that carries it. */
  predicate Valid(c: Client) {
    && FitsSigned(c.connectionId, 8)
    && IsRandom31(c.transactionId)
    && |c.peerId| == 20
    && IsRandom31(c.key)
  }

  /**
   * Client.__init__: the magic connection id, a random transaction id and key,
   * and a 20-byte random peer id (os.urandom(20), passed in).
   */
  function Init(transactionBits: seq<bool>, peerId: seq<byte>, keyBits: seq<bool>): (c: Client)
    requires |transactionBits| == 31 && |keyBits| == 31 && |peerId| == 20
    ensures Valid(c)
    ensures c.connectionId == InitialConnectionId && c.peerId == peerId
  {
    Client(InitialConnectionId, GenerateRandom31(transactionBits), peerId, GenerateRandom31(keyBits))
  }

  // ---------------------------------------------------------------------
  // Requests

  /** '>qii': connection_id, action, transaction_id. */
  const PreambleFormat: seq<Code> := [Int64, Int32, Int32]

  /** '>qqqiiiih': downloaded, left, uploaded, event, ip, key, num_want, port. */
  const DownloadFormat: seq<Code> := [Int64, Int64, Int64, Int32, Int32, Int32, Int32, Int16]

  lemma PreambleFields(args: seq<int>)
    requires Pack(PreambleFormat, args).Some?
    ensures var p := Pack(PreambleFormat, args).value;
      && |p| == 16
      && FieldAt(p, 0, Int64) == args[0]
      && FieldAt(p, 8, Int32) == args[1]
      && FieldAt(p, 12, Int32) == args[2]
  {
    var fmt := PreambleFormat;
    assert Size(fmt) == 16;
    PackedFieldAt(fmt, args, 0);
    PackedFieldAt(fmt, args, 1);
    PackedFieldAt(fmt, args, 2);
  }

  /** make_connection_packet: the 16-byte connect request. */
  function MakeConnectionPacket(c: Client): (p: seq<byte>)
    requires Valid(c)
    ensures |p| == 16
    ensures FieldAt(p, 0, Int64) == c.connectionId
    ensures FieldAt(p, 8, Int32) == ConnectAction
    ensures FieldAt(p, 12, Int32) == c.transactionId
  {
    var args := PreambleArgs(c, ConnectAction);
    assert Fits(Int32, c.transactionId);
    PreambleFields(args);
    Pack(PreambleFormat, args).value
  }

  lemma DownloadOffsets()
    ensures Offset(DownloadFormat, 1) == 8 && Offset(DownloadFormat, 2) == 16
    ensures Offset(DownloadFormat, 3) == 24 && Offset(DownloadFormat, 4) == 28
    ensures Offset(DownloadFormat, 5) == 32 && Offset(DownloadFormat, 6) == 36
    ensures Offset(DownloadFormat, 7) == 40 && Size(DownloadFormat) == 42
  {
  }

  lemma DownloadFields(args: seq<int>)
    requires Pack(DownloadFormat, args).Some?
    ensures var p := Pack(DownloadFormat, args).value;
      && |p| == 42
      && FieldAt(p, 0, Int64) == args[0]
      && FieldAt(p, 8, Int64) == args[1]
      && FieldAt(p, 16, Int64) == args[2]
      && FieldAt(p, 24, Int32) == args[3]
      && FieldAt(p, 28, Int32) == args[4]
      && FieldAt(p, 32, Int32) == args[5]
      && FieldAt(p, 36, Int32) == args[6]
      && FieldAt(p, 40, Int16) == args[7]
  {
    var fmt, p := DownloadFormat, Pack(DownloadFormat, args).value;
    DownloadOffsets();
    assert FieldAt(p, 0, Int64) == args[0] by { PackedFieldAt(fmt, args, 0); }
    assert FieldAt(p, 8, Int64) == args[1] by { PackedFieldAt(fmt, args, 1); }
    assert FieldAt(p, 16, Int64) == args[2] by { PackedFieldAt(fmt, args, 2); }
    assert FieldAt(p, 24, Int32) == args[3] by { PackedFieldAt(fmt, args, 3); }
    assert FieldAt(p, 28, Int32) == args[4] by { PackedFieldAt(fmt, args, 4); }
    assert FieldAt(p, 32, Int32) == args[5] by { PackedFieldAt(fmt, args, 5); }
    assert FieldAt(p, 36, Int32) == args[6] by { PackedFieldAt(fmt, args, 6); }
    assert FieldAt(p, 40, Int16) == args[7] by { PackedFieldAt(fmt, args, 7); }
  }

  /** The result of make_announce_packet: the client with its new transaction id, and the packet if struct could pack it. */
  datatype Announce = Announce(client: Client, packet: Option<seq<byte>>)

  /**
   * The announce request layout, field by field, as the doc-comment of
   * make_announce_packet tabulates it: what c sends for a torrent of
   * totalLength bytes with the given info hash.
   */
  predicate IsAnnounceRequest(p: seq<byte>, c: Client, totalLength: int, infoHash: seq<byte>) {
    && |p| == 98
    && FieldAt(p, 0, Int64) == c.connectionId
    && FieldAt(p, 8, Int32) == AnnounceAction
    && FieldAt(p, 12, Int32) == c.transactionId
    && p[16..36] == infoHash
    && p[36..56] == c.peerId
    && FieldAt(p, 56, Int64) == 0             // downloaded
    && FieldAt(p, 64, Int64) == totalLength   // left
    && FieldAt(p, 72, Int64) == 0             // uploaded
    && FieldAt(p, 80, Int32) == 0             // event: none
    && FieldAt(p, 84, Int32) == 0             // ip: the sender's address
    && FieldAt(p, 88, Int32) == c.key
    && FieldAt(p, 92, Int32) == DefaultNumWant
    && FieldAt(p, 96, Int16) == ListenPort
  }

  /**
   * make_announce_packet: draws a fresh transaction id, then builds the
   * 98-byte announce request. infoHash is the already computed 20-byte
   * SHA-1 of the info dictionary. struct refuses a total length outside
   * the int64 range, and the transaction id has already changed by then.
   */
  function MakeAnnouncePacket(c: Client, totalLength: int, infoHash: seq<byte>, transactionBits: seq<bool>): (r: Announce)
    requires Valid(c) && |infoHash| == 20 && |transactionBits| == 31
    ensures r.client == c.(transactionId := GenerateRandom31(transactionBits)) && Valid(r.client)
    ensures r.packet.Some? <==> FitsSigned(totalLength, 8)
    ensures r.packet.Some? ==> IsAnnounceRequest(r.packet.value, r.client, totalLength, infoHash)
  {
    var c' := c.(transactionId := GenerateRandom31(transactionBits));
    Announce(c', PackAnnounce(c', totalLength, infoHash))
  }

  /** The packing half of make_announce_packet, once the transaction id is drawn. */
  function PackAnnounce(c: Client, totalLength: int, infoHash: seq<byte>): (packet: Option<seq<byte>>)
    requires Valid(c) && |infoHash| == 20
    ensures packet.Some? <==> FitsSigned(totalLength, 8)
    ensures packet.Some? ==> IsAnnounceRequest(packet.value, c, totalLength, infoHash)
  {
    var preamble := Pack(PreambleFormat, PreambleArgs(c, AnnounceAction));
    var downloadInfo := Pack(DownloadFormat, DownloadInfoArgs(c, totalLength));
    AnnouncePacks(c, totalLength);
    if preamble.None? || downloadInfo.None? then None
    else
      AnnounceFields(c, totalLength, infoHash);
      Some(preamble.value + infoHash + c.peerId + downloadInfo.value)
  }

  /** The values packed with '>qii' ahead of every request. */
  function PreambleArgs(c: Client, action: int): seq<int> {
    [c.connectionId, action, c.transactionId]
  }

  /** The values packed with '>qqqiiiih' at the end of an announce request. */
  function DownloadInfoArgs(c: Client, totalLength: int): seq<int> {
    var downloaded, uploaded, event, ip := 0, 0, 0, 0;
    var left := totalLength - downloaded;
    [downloaded, left, uploaded, event, ip, c.key, DefaultNumWant, ListenPort]
  }

  /** struct packs both halves of the announce request exactly when the length fits an int64. */
  lemma AnnouncePacks(c: Client, totalLength: int)
    requires Valid(c)
    ensures Pack(PreambleFormat, PreambleArgs(c, AnnounceAction)).Some?
    ensures Pack(DownloadFormat, DownloadInfoArgs(c, totalLength)).Some? <==> FitsSigned(totalLength, 8)
  {
    var tail := DownloadInfoArgs(c, totalLength);
    assert Fits(Int32, c.transactionId) && Fits(Int32, c.key) && Fits(Int16, ListenPort);
    assert Fits(DownloadFormat[1], tail[1]) <==> FitsSigned(totalLength, 8);
  }

  lemma AnnounceFields(c: Client, totalLength: int, infoHash: seq<byte>)
    requires Valid(c) && |infoHash| == 20
    requires Pack(DownloadFormat, DownloadInfoArgs(c, totalLength)).Some?
    ensures Pack(PreambleFormat, PreambleArgs(c, AnnounceAction)).Some?
    ensures IsAnnounceRequest(Pack(PreambleFormat, PreambleArgs(c, AnnounceAction)).value + infoHash + c.peerId
                                + Pack(DownloadFormat, DownloadInfoArgs(c, totalLength)).value,
                              c, totalLength, infoHash)
  {
    AnnouncePacks(c, totalLength);
    var pre := Pack(PreambleFormat, PreambleArgs(c, AnnounceAction)).value;
    var info := Pack(DownloadFormat, DownloadInfoArgs(c, totalLength)).value;
    PreambleFields(PreambleArgs(c, AnnounceAction));
    DownloadFields(DownloadInfoArgs(c, totalLength));
    AnnounceLayout(pre, infoHash, c.peerId, info);
  }

  /** Where the four parts of the announce request end up. */
  lemma AnnounceLayout(pre: seq<byte>, infoHash: seq<byte>, peerId: seq<byte>, info: seq<byte>)
    requires |pre| == 16 && |infoHash| == 20 && |peerId| == 20 && |info| == 42
    ensures var p := pre + infoHash + peerId + info;
      && |p| == 98
      && p[16..36] == infoHash
      && p[36..56] == peerId
      && (forall off: nat, c: Code {:trigger FieldAt(pre, off, c)} :: off + Width(c) <= 16 ==> FieldAt(p, off, c) == FieldAt(pre, off, c))
      && (forall off: nat, c: Code {:trigger FieldAt(info, off, c)} :: off + Width(c) <= 42 ==> FieldAt(p, 56 + off, c) == FieldAt(info, off, c))
  {
    var p := pre + infoHash + peerId + info;
    forall off: nat, c: Code | off + Width(c) <= 16
      ensures FieldAt(p, off, c) == FieldAt(pre, off, c)
    {
      assert p[off..off + Width(c)] == pre[off..off + Width(c)];
    }
    forall off: nat, c: Code | off + Width(c) <= 42
      ensures FieldAt(p, 56 + off, c) == FieldAt(info, off, c)
    {
      assert p == (pre + infoHash + peerId) + info;
      FieldAtShift(pre + infoHash + peerId, info, off, c);
    }
  }

  // ---------------------------------------------------------------------
  // Announce replies: get_peers

  /** One peer record of an announce reply: a 4-byte IPv4 address and a 2-byte TCP port. */
  datatype PeerAddress = PeerAddress(ip: int, port: int)

  /** What get_peers reads out of an announce reply. */
  datatype AnnounceReply = AnnounceReply(interval: int, leechers: int, seeders: int, peers: seq<PeerAddress>)

  /** action, transaction_id, interval, leechers and seeders: 20 bytes. */
  const HeaderSize: nat := 20
  /** The three counters get_peers unpacks from bytes 8-19 ('>iii'). */
  const CountsFormat: seq<Code> := [Int32, Int32, Int32]
  /** A peer record as documented: int32 ip, uint16 port. */
  const PeerRecordFormat: seq<Code> := [Int32, UInt16]
  /** Bytes per peer record. */
  const PeerRecordSize: nat := 6

  function DecodePeer(record: seq<byte>): (p: PeerAddress)
    requires |record| == PeerRecordSize
    ensures p.ip == FieldAt(record, 0, Int32) && p.port == FieldAt(record, 4, UInt16)
  {
    var f := Unpack(PeerRecordFormat, record).value;
    UnpackedFieldAt(PeerRecordFormat, record, 0);
    UnpackedFieldAt(PeerRecordFormat, record, 1);
    PeerAddress(f[0], f[1])
  }

  /** Peer record n of a byte string: bytes 6n to 6n+5. */
  function Record(records: seq<byte>, n: nat): seq<byte>
    requires 6 * n + 6 <= |records|
  {
    records[6 * n..6 * n + 6]
  }

  lemma RecordShift(records: seq<byte>, n: nat)
    requires 6 <= |records| && 1 <= n && 6 * n + 6 <= |records|
    ensures Record(records[6..], n - 1) == Record(records, n)
  {
  }

  /**
   * The first count peer records of records, stopping at the last whole
   * record present.
   */
  function ParsePeers(records: seq<byte>, count: nat): (peers: seq<PeerAddress>)
    ensures |peers| == Min(count, |records| / 6)
  {
    if count == 0 || |records| < 6 then []
    else [DecodePeer(records[..6])] + ParsePeers(records[6..], count - 1)
  }

  /** Peer n of the parsed list is decoded from record n: the peers come in input order. */
  lemma {:induction false} ParsePeersAt(records: seq<byte>, count: nat, n: nat)
    requires n < |ParsePeers(records, count)|
    ensures 6 * n + 6 <= |records|
    ensures ParsePeers(records, count)[n] == DecodePeer(Record(records, n))
  {
    if n > 0 {
      ParsePeersAt(records[6..], count - 1, n - 1);
      RecordShift(records, n);
    }
  }

  /**
   * get_peers: None for a reply shorter than the 20-byte header; otherwise
   * the three counters and the peer records that follow, as many as the
   * seeder count declares but never more than the whole records present
   * (a negative count reads none, as xrange() does).
   */
  function GetPeers(response: seq<byte>): (r: Option<AnnounceReply>)
    ensures r.None? <==> |response| < HeaderSize
    ensures r.Some? ==>
      && r.value.interval == FieldAt(response, 8, Int32)
      && r.value.leechers == FieldAt(response, 12, Int32)
      && r.value.seeders == FieldAt(response, 16, Int32)
      && |r.value.peers| == Min(Max(r.value.seeders, 0), (|response| - HeaderSize) / 6)
      && forall n :: 0 <= n < |r.value.peers| ==> r.value.peers[n] == DecodePeer(Record(response[HeaderSize..], n))
  {
    if |response| < HeaderSize then None
    else
      var counts := Unpack(CountsFormat, response[8..HeaderSize]).value;
      var interval, leechers, seeders := counts[0], counts[1], counts[2];
      CountsAt(response);
      var records := response[HeaderSize..];
      var peers := ParsePeers(records, if seeders < 0 then 0 else seeders);
      assert forall n :: 0 <= n < |peers| ==> peers[n] == DecodePeer(Record(records, n)) by {
        forall n | 0 <= n < |peers| ensures peers[n] == DecodePeer(Record(records, n)) {
          ParsePeersAt(records, if seeders < 0 then 0 else seeders, n);
        }
      }
      Some(AnnounceReply(interval, leechers, seeders, peers))
  }

  lemma CountsAt(response: seq<byte>)
    requires |response| >= HeaderSize
    ensures var counts := Unpack(CountsFormat, response[8..HeaderSize]).value;
      && counts[0] == FieldAt(response, 8, Int32)
      && counts[1] == FieldAt(response, 12, Int32)
      && counts[2] == FieldAt(response, 16, Int32)
  {
    var s := response[8..HeaderSize];
    PackUnpack(CountsFormat, s);
    var counts := Unpack(CountsFormat, s).value;
    PackedFieldAt(CountsFormat, counts, 0);
    PackedFieldAt(CountsFormat, counts, 1);
    PackedFieldAt(CountsFormat, counts, 2);
    assert s[0..4] == response[8..12] && s[4..8] == response[12..16] && s[8..12] == response[16..20];
  }

  // ---------------------------------------------------------------------
  // Reply encoders: what a tracker sends, for stating round trips

  predicate ValidPeer(p: PeerAddress) {
    Fits(Int32, p.ip) && Fits(UInt16, p.port)
  }

  function EncodePeer(p: PeerAddress): (record: seq<byte>)
    requires ValidPeer(p)
    ensures |record| == PeerRecordSize
  {
    Pack(PeerRecordFormat, [p.ip, p.port]).value
  }

  lemma DecodeEncodePeer(p: PeerAddress)
    requires ValidPeer(p)
    ensures DecodePeer(EncodePeer(p)) == p
  {
    UnpackPack(PeerRecordFormat, [p.ip, p.port]);
  }

  function EncodePeers(peers: seq<PeerAddress>): (records: seq<byte>)
    requires forall i :: 0 <= i < |peers| ==> ValidPeer(peers[i])
    ensures |records| == 6 * |peers|
  {
    if |peers| == 0 then [] else EncodePeer(peers[0]) + EncodePeers(peers[1..])
  }

  lemma ParsePeersCons(records: seq<byte>, count: nat)
    requires count > 0 && |records| >= 6
    ensures ParsePeers(records, count) == [DecodePeer(records[..6])] + ParsePeers(records[6..], count - 1)
  {
  }

  /** Parsing encoded records with a count of at least the number encoded gives every peer back. */
  lemma {:induction false} ParseEncodePeers(peers: seq<PeerAddress>, count: nat)
    requires forall i :: 0 <= i < |peers| ==> ValidPeer(peers[i])
    requires |peers| <= count
    ensures ParsePeers(EncodePeers(peers), count) == peers
  {
    if |peers| > 0 {
      var head := EncodePeer(peers[0]);
      var tail := EncodePeers(peers[1..]);
      assert EncodePeers(peers) == head + tail;
      assert ParsePeers(head + tail, count) == [DecodePeer(head)] + ParsePeers(tail, count - 1) by {
        ParsePeersCons(head + tail, count);
        assert (head + tail)[..6] == head && (head + tail)[6..] == tail;
      }
      DecodeEncodePeer(peers[0]);
      ParseEncodePeers(peers[1..], count - 1);
      ConsSplit(peers);
    }
  }

  lemma ConsSplit<T>(s: seq<T>)
    requires |s| > 0
    ensures [s[0]] + s[1..] == s
  {
  }

  /** A reply get_peers can return in full: counters that fit an int32, at most seeders peers. */
  predicate ValidReply(r: AnnounceReply) {
    && Fits(Int32, r.interval)
    && Fits(Int32, r.leechers)
    && Fits(Int32, r.seeders)
    && |r.peers| <= r.seeders
    && forall i :: 0 <= i < |r.peers| ==> ValidPeer(r.peers[i])
  }

  /** action and transaction_id, the first 8 bytes of every reply. */
  const ReplyPrefixFormat: seq<Code> := [Int32, Int32]

  /** The bytes of an announce reply with the given transaction id. */
  function EncodeAnnounceReply(transactionId: int, r: AnnounceReply): (response: seq<byte>)
    requires Fits(Int32, transactionId) && ValidReply(r)
    ensures |response| == HeaderSize + 6 * |r.peers|
  {
    Pack(ReplyPrefixFormat, [AnnounceAction, transactionId]).value
      + Pack(CountsFormat, [r.interval, r.leechers, r.seeders]).value
      + EncodePeers(r.peers)
  }

  /** get_peers recovers every field of an encoded announce reply. */
  lemma GetPeersRoundTrip(transactionId: int, r: AnnounceReply)
    requires Fits(Int32, transactionId) && ValidReply(r)
    ensures GetPeers(EncodeAnnounceReply(transactionId, r)) == Some(r)
  {
    var prefix := Pack(ReplyPrefixFormat, [AnnounceAction, transactionId]).value;
    var counts := Pack(CountsFormat, [r.interval, r.leechers, r.seeders]).value;
    var records := EncodePeers(r.peers);
    var response := prefix + counts + records;
    assert response[8..HeaderSize] == counts;
    assert response[HeaderSize..] == records;
    UnpackPack(CountsFormat, [r.interval, r.leechers, r.seeders]);
    ParseEncodePeers(r.peers, r.seeders);
  }

  // ---------------------------------------------------------------------
  // check_packet

  /** What check_packet returns, or the exception it raises. */
  datatype Outcome =
    | Mismatch                             // -1: wrong action or transaction id, or an action it does not handle
    | Connected                            // 0: a connect reply; the connection id was replaced
    | Peers(reply: Option<AnnounceReply>)  // get_peers' result for an announce reply
    | TrackerError                         // action 3: handed to the error-reply parser
    | Raised                               // struct.error: a field it unpacks is cut short

  /** check_packet's return value together with the client state it leaves behind. */
  datatype Checked = Checked(client: Client, outcome: Outcome)

  /**
   * check_packet(action_sent, response): checks the action at bytes 0-3
   * (the one sent, or 3 for an error), then the transaction id at bytes
   * 4-7, then dispatches on the action. A connect reply must be exactly
   * 16 bytes, since its connection id is unpacked from everything after
   * byte 8.
   */
  function CheckPacket(c: Client, actionSent: int, response: seq<byte>): (r: Checked)
    ensures Valid(c) ==> Valid(r.client)
    ensures r.outcome != Connected ==> r.client == c
    ensures |response| >= 8 && FieldAt(response, 0, Int32) != actionSent && FieldAt(response, 0, Int32) != ErrorAction
            ==> r == Checked(c, Mismatch)
    ensures |response| >= 8 && FieldAt(response, 4, Int32) != c.transactionId ==> r == Checked(c, Mismatch)
    ensures r.outcome == Connected <==>
            && actionSent == ConnectAction
            && |response| == 16
            && FieldAt(response, 0, Int32) == ConnectAction
            && FieldAt(response, 4, Int32) == c.transactionId
    ensures r.outcome == Connected ==> r.client == c.(connectionId := FieldAt(response, 8, Int64))
    ensures r.outcome.Peers? <==>
            && actionSent == AnnounceAction
            && |response| >= 8
            && FieldAt(response, 0, Int32) == AnnounceAction
            && FieldAt(response, 4, Int32) == c.transactionId
    ensures r.outcome.Peers? ==> r.outcome.reply == GetPeers(response)
    ensures r.outcome == TrackerError <==>
            && |response| >= 8
            && FieldAt(response, 0, Int32) == ErrorAction
            && FieldAt(response, 4, Int32) == c.transactionId
    ensures r.outcome == Raised <==>
            || |response| < 4
            || (4 <= |response| < 8 && (FieldAt(response, 0, Int32) == actionSent || FieldAt(response, 0, Int32) == ErrorAction))
            || (&& |response| >= 8
                && actionSent == ConnectAction
                && FieldAt(response, 0, Int32) == ConnectAction
                && FieldAt(response, 4, Int32) == c.transactionId
                && |response| != 16)
  {
    var actionField := UnpackField(response, 0, Int32);
    if actionField.None? then Checked(c, Raised)
    else
      var actionRecd := actionField.value;
      if actionRecd != actionSent && actionRecd != ErrorAction then Checked(c, Mismatch)
      else CheckTransaction(c, actionRecd, response)
  }

  /** check_packet once the action is one it accepts: the transaction id check. */
  function CheckTransaction(c: Client, actionRecd: int, response: seq<byte>): (r: Checked)
    requires |response| >= 4 && actionRecd == FieldAt(response, 0, Int32)
    ensures |response| < 8 ==> r == Checked(c, Raised)
    ensures |response| >= 8 && FieldAt(response, 4, Int32) != c.transactionId ==> r == Checked(c, Mismatch)
    ensures |response| >= 8 && FieldAt(response, 4, Int32) == c.transactionId ==> r == Dispatch(c, actionRecd, response)
  {
    var transactionField := UnpackField(response, 4, Int32);
    if transactionField.None? then Checked(c, Raised)
    else if c.transactionId != transactionField.value then Checked(c, Mismatch)
    else Dispatch(c, actionRecd, response)
  }

  /** check_packet once action and transaction id are accepted: dispatch on the action. */
  function Dispatch(c: Client, actionRecd: int, response: seq<byte>): (r: Checked)
    requires |response| >= 8
    ensures Valid(c) ==> Valid(r.client)
    ensures r.outcome != Connected ==> r.client == c
    ensures r.outcome == Connected <==> actionRecd == ConnectAction && |response| == 16
    ensures r.outcome == Connected ==> r.client == c.(connectionId := FieldAt(response, 8, Int64))
    ensures r.outcome.Peers? <==> actionRecd == AnnounceAction
    ensures r.outcome.Peers? ==> r.outcome.reply == GetPeers(response)
    ensures r.outcome == TrackerError <==> actionRecd == ErrorAction
    ensures r.outcome == Raised <==> actionRecd == ConnectAction && |response| != 16
  {
    if actionRecd == ConnectAction then
      var idField := UnpackTail(response, 8, Int64);
      if idField.None? then Checked(c, Raised)
      else Checked(c.(connectionId := idField.value), Connected)
    else if actionRecd == AnnounceAction then Checked(c, Peers(GetPeers(response)))
    else if actionRecd == ErrorAction then Checked(c, TrackerError)
    else Checked(c, Mismatch)
  }

  /** unpack_packet('>x', response[off:off + width])[0]: None where struct raises. */
  function UnpackField(response: seq<byte>, off: nat, c: Code): (v: Option<int>)
    ensures v.Some? <==> off + Width(c) <= |response|
    ensures v.Some? ==> v.value == FieldAt(response, off, c)
  {
    FirstField(response, off, c);
    match Unpack([c], Slice(response, off, off + Width(c)))
    case None => None
    case Some(vs) => Some(vs[0])
  }

  /** unpack_packet('>x', response[off:])[0]: the rest of the response must be exactly one field. */
  function UnpackTail(response: seq<byte>, off: nat, c: Code): (v: Option<int>)
    requires off <= |response|
    ensures v.Some? <==> |response| == off + Width(c)
    ensures v.Some? ==> v.value == FieldAt(response, off, c)
  {
    FirstField(response, off, c);
    assert Size([c]) == Width(c);
    match Unpack([c], Slice(response, off, |response|))
    case None => None
    case Some(vs) => Some(vs[0])
  }

  /**
   * unpack('>x', response[off:off + width]) succeeds exactly when the slice
   * is whole, and then gives the field at off.
   */
  lemma FirstField(response: seq<byte>, off: nat, c: Code)
    ensures Unpack([c], Slice(response, off, off + Width(c))).Some? <==> off + Width(c) <= |response|
    ensures off + Width(c) <= |response| ==>
      Unpack([c], Slice(response, off, off + Width(c))).value[0] == FieldAt(response, off, c)
  {
    var s := Slice(response, off, off + Width(c));
    assert Size([c]) == Width(c);
    if off + Width(c) <= |response| {
      assert s == response[off..off + Width(c)];
      UnpackedFieldAt([c], s, 0);
      assert s[0..Width(c)] == s;
    }
  }

  // ---------------------------------------------------------------------
  // check_packet against well-formed replies

  /** A connect reply: action, transaction_id, connection_id. */
  const ConnectReplyFormat: seq<Code> := [Int32, Int32, Int64]

  function EncodeConnectReply(transactionId: int, connectionId: int): (response: seq<byte>)
    requires Fits(Int32, transactionId) && Fits(Int64, connectionId)
    ensures |response| == 16
  {
    Pack(ConnectReplyFormat, [ConnectAction, transactionId, connectionId]).value
  }

  /** An error reply: action 3, transaction_id, then the message bytes. */
  function EncodeErrorReply(transactionId: int, message: seq<byte>): (response: seq<byte>)
    requires Fits(Int32, transactionId)
    ensures |response| == 8 + |message|
  {
    Pack(ReplyPrefixFormat, [ErrorAction, transactionId]).value + message
  }

  /** The action and transaction id fields of every reply. */
  lemma ReplyPrefixFields(action: int, transactionId: int, rest: seq<byte>)
    requires Fits(Int32, action) && Fits(Int32, transactionId)
    ensures var response := Pack(ReplyPrefixFormat, [action, transactionId]).value + rest;
      && |response| == 8 + |rest|
      && FieldAt(response, 0, Int32) == action
      && FieldAt(response, 4, Int32) == transactionId
  {
    var args := [action, transactionId];
    var prefix := Pack(ReplyPrefixFormat, args).value;
    PackedFieldAt(ReplyPrefixFormat, args, 0);
    PackedFieldAt(ReplyPrefixFormat, args, 1);
    assert (prefix + rest)[0..4] == prefix[0..4];
    assert (prefix + rest)[4..8] == prefix[4..8];
  }

  /** A connect reply carrying the client's transaction id installs the tracker's connection id. */
  lemma ConnectReplyAccepted(c: Client, connectionId: int)
    requires Valid(c) && Fits(Int64, connectionId)
    ensures CheckPacket(c, ConnectAction, EncodeConnectReply(c.transactionId, connectionId))
         == Checked(c.(connectionId := connectionId), Connected)
  {
    var args := [ConnectAction, c.transactionId, connectionId];
    assert Fits(Int32, c.transactionId);
    PackedFieldAt(ConnectReplyFormat, args, 0);
    PackedFieldAt(ConnectReplyFormat, args, 1);
    PackedFieldAt(ConnectReplyFormat, args, 2);
  }

  /** A connect reply carrying any other transaction id is rejected and changes nothing. */
  lemma ConnectReplyWrongTransaction(c: Client, transactionId: int, connectionId: int)
    requires Valid(c) && Fits(Int32, transactionId) && Fits(Int64, connectionId)
    requires transactionId != c.transactionId
    ensures CheckPacket(c, ConnectAction, EncodeConnectReply(transactionId, connectionId)) == Checked(c, Mismatch)
  {
    PackedFieldAt(ConnectReplyFormat, [ConnectAction, transactionId, connectionId], 1);
  }

  /** An announce reply carrying the client's transaction id yields its peers, state unchanged. */
  lemma AnnounceReplyAccepted(c: Client, r: AnnounceReply)
    requires Valid(c) && ValidReply(r)
    ensures CheckPacket(c, AnnounceAction, EncodeAnnounceReply(c.transactionId, r)) == Checked(c, Peers(Some(r)))
  {
    assert Fits(Int32, c.transactionId);
    var counts := Pack(CountsFormat, [r.interval, r.leechers, r.seeders]).value;
    ReplyPrefixFields(AnnounceAction, c.transactionId, counts + EncodePeers(r.peers));
    var response := EncodeAnnounceReply(c.transactionId, r);
    assert response == Pack(ReplyPrefixFormat, [AnnounceAction, c.transactionId]).value + (counts + EncodePeers(r.peers));
    GetPeersRoundTrip(c.transactionId, r);
  }

  /** An error reply for the outstanding transaction is reported whichever request was sent. */
  lemma ErrorReplyReported(c: Client, actionSent: int, message: seq<byte>)
    requires Valid(c)
    ensures CheckPacket(c, actionSent, EncodeErrorReply(c.transactionId, message)) == Checked(c, TrackerError)
  {
    assert Fits(Int32, c.transactionId);
    ReplyPrefixFields(ErrorAction, c.transactionId, message);
  }
}

=== FILE: retry.dfy ===
/**
 * The backoff decorator: call the wrapped operation up to 8 times,
 * sleeping one second after each socket error, and return the first
 * value it returns. The outcome of each call is a parameter: attempt(i)
 * is what call number i (from 0) does.
 */
module Retry {

  /** backoff calls the wrapped operation at most this many times. */
  const MaxAttempts: nat := 8

  /** What one call of the wrapped operation does. */
  datatype Attempt<T> =
    | Returned(value: T)  // it returns (possibly None)
    | SocketError         // it raises socket.error: caught, slept on, retried
    | OtherError          // it raises anything else: not caught

  /** How the decorated call ends. */
  datatype Ending<T> =
    | Value(value: T)  // the first returned value
    | GaveUp           // eight socket errors: the decorated call returns None
    | Propagated       // an uncaught exception escapes

  /** calls: operations made; sleeps: one-second sleeps taken. */
  datatype Run<T> = Run(calls: nat, sleeps: nat, ending: Ending<T>)

  /** Calls lo to hi - 1 all raise socket.error. */
  ghost predicate FailsBetween<T>(attempt: nat -> Attempt<T>, lo: nat, hi: nat) {
    forall i :: lo <= i < hi ==> attempt(i).SocketError?
  }

  /** The loop from iteration n on. */
  function BackoffFrom<T>(attempt: nat -> Attempt<T>, n: nat): (r: Run<T>)
    requires n <= MaxAttempts
    ensures n <= r.calls <= MaxAttempts
    ensures r.sleeps == (if r.ending.GaveUp? then r.calls else r.calls - 1) - n
    ensures r.ending.GaveUp? ==> r.calls == MaxAttempts && FailsBetween(attempt, n, MaxAttempts)
    ensures !r.ending.GaveUp? ==> n < r.calls && FailsBetween(attempt, n, r.calls - 1)
    ensures r.ending.Value? ==> attempt(r.calls - 1) == Returned(r.ending.value)
    ensures r.ending.Propagated? ==> attempt(r.calls - 1).OtherError?
    decreases MaxAttempts - n
  {
    if n == MaxAttempts then Run(n, 0, GaveUp)
    else
      match attempt(n)
      case Returned(v) => Run(n + 1, 0, Value(v))
      case OtherError => Run(n + 1, 0, Propagated)
      case SocketError =>
        var r := BackoffFrom(attempt, n + 1);
        Run(r.calls, r.sleeps + 1, r.ending)
  }

  /** backoff(func)(...): at least one call, at most eight. */
  function Backoff<T>(attempt: nat -> Attempt<T>): (r: Run<T>)
    ensures 1 <= r.calls <= MaxAttempts
    ensures r.ending.GaveUp? <==> FailsBetween(attempt, 0, MaxAttempts)
    ensures r.ending.GaveUp? ==> r.calls == MaxAttempts
    ensures !r.ending.GaveUp? ==> FailsBetween(attempt, 0, r.calls - 1) && !attempt(r.calls - 1).SocketError?
    ensures r.ending.Value? ==> attempt(r.calls - 1) == Returned(r.ending.value)
    ensures r.ending.Propagated? ==> attempt(r.calls - 1).OtherError?
    ensures r.sleeps == (if r.ending.GaveUp? then r.calls else r.calls - 1)
  {
    BackoffFrom(attempt, 0)
  }

  /** A run that fails k < 8 times and then returns v makes k + 1 calls, sleeps k times and returns v. */
  lemma FailThenSucceed<T>(attempt: nat -> Attempt<T>, k: nat, v: T)
    requires k < MaxAttempts
    requires FailsBetween(attempt, 0, k) && attempt(k) == Returned(v)
    ensures Backoff(attempt) == Run(k + 1, k, Value(v))
  {
  }

  /** A run whose every call raises socket.error makes 8 calls, sleeps 8 times and returns nothing. */
  lemma AlwaysFails<T>(attempt: nat -> Attempt<T>)
    requires FailsBetween(attempt, 0, MaxAttempts)
    ensures Backoff(attempt) == Run(MaxAttempts, MaxAttempts, GaveUp)
  {
  }
}

=== FILE: session.dfy ===
/**
 * Session.get_torrent: the connect -> announce exchange gated by
 * check_status, the set-up of one connection per peer, and the
 * write-interest update at the top of the event loop.
 */
module Session {
  import opened Wrappers
  import opened BigEndian
  import opened Struct
  import opened TrackerClient

  // ---------------------------------------------------------------------
  // Tracker exchange

  /**
   * check_status ends the session when status < 0. Under Python 2
   * ordering None is below every number and a list above, so -1, the
   * None of a short announce reply and the None of an error reply all
   * abort, while 0 and a peer list go on. An exception aborts as well.
   */
  predicate Aborts(o: Outcome) {
    match o
    case Mismatch => true
    case Connected => false
    case Peers(reply) => reply.None?
    case TrackerError => true
    case Raised => true
  }

  datatype Stage = ConnectStage | AnnounceStage

  /** How the tracker exchange of get_torrent ends, with the requests sent in order. */
  datatype Exchange =
    | Aborted(stage: Stage, client: Client, sent: seq<seq<byte>>)
    | Announced(client: Client, sent: seq<seq<byte>>, reply: AnnounceReply)

  /**
   * get_torrent up to the peer list: send the connect request, check the
   * reply, and only if that status is not negative build, send and check
   * the announce request. The replies and the fresh transaction id bits
   * stand for the socket exchange and the random generator.
   */
  function GetTorrent(c: Client, connectReply: seq<byte>, totalLength: int, infoHash: seq<byte>,
                      transactionBits: seq<bool>, announceReply: seq<byte>): (r: Exchange)
    requires Valid(c) && |infoHash| == 20 && |transactionBits| == 31
    ensures Valid(r.client)
    ensures 1 <= |r.sent| <= 2 && r.sent[0] == MakeConnectionPacket(c)
    ensures Aborts(CheckPacket(c, ConnectAction, connectReply).outcome) ==> r.Aborted? && r.stage == ConnectStage && |r.sent| == 1
    ensures r.Aborted? && !Aborts(CheckPacket(c, ConnectAction, connectReply).outcome) ==> r.stage == AnnounceStage
    ensures |r.sent| == 2 ==>
      && CheckPacket(c, ConnectAction, connectReply).outcome == Connected
      && IsAnnounceRequest(r.sent[1], r.client, totalLength, infoHash)
      && r.client.connectionId == FieldAt(connectReply, 8, Int64)
    ensures r.Announced? ==>
      && |r.sent| == 2
      && |announceReply| >= 8
      && FieldAt(announceReply, 4, Int32) == r.client.transactionId
      && GetPeers(announceReply) == Some(r.reply)
    ensures var connected := CheckPacket(c, ConnectAction, connectReply);
      var built := MakeAnnouncePacket(connected.client, totalLength, infoHash, transactionBits);
      && (!Aborts(connected.outcome) && FitsSigned(totalLength, 8) ==> |r.sent| == 2 && r.sent[1] == built.packet.value)
      && (|r.sent| == 2 ==> (r.Announced? <==> !Aborts(CheckPacket(built.client, AnnounceAction, announceReply).outcome)))
      && (r.Announced? ==>
            && r.client == built.client
            && CheckPacket(built.client, AnnounceAction, announceReply).outcome == Peers(Some(r.reply)))
  {
    var connectPacket := MakeConnectionPacket(c);
    var connected := CheckPacket(c, ConnectAction, connectReply);
    if Aborts(connected.outcome) then Aborted(ConnectStage, connected.client, [connectPacket])
    else
      var built := MakeAnnouncePacket(connected.client, totalLength, infoHash, transactionBits);
      if built.packet.None? then Aborted(AnnounceStage, built.client, [connectPacket])
      else
        var sent := [connectPacket, built.packet.value];
        var announced := CheckPacket(built.client, AnnounceAction, announceReply);
        if Aborts(announced.outcome) then Aborted(AnnounceStage, announced.client, sent)
        else Announced(announced.client, sent, announced.outcome.reply.value)
  }

  /**
   * A tracker that answers both requests with well-formed replies carrying
   * the outstanding transaction ids: both requests go out, the client
   * ends with the tracker's connection id and the fresh transaction id,
   * and the session goes on with exactly the peers the tracker listed.
   */
  lemma GetTorrentSucceeds(c: Client, connectionId: int, totalLength: int, infoHash: seq<byte>,
                           transactionBits: seq<bool>, reply: AnnounceReply)
    requires Valid(c) && |infoHash| == 20 && |transactionBits| == 31
    requires Fits(Int64, connectionId) && FitsSigned(totalLength, 8) && ValidReply(reply)
    ensures var drawn := GenerateRandom31(transactionBits);
      var r := GetTorrent(c, EncodeConnectReply(c.transactionId, connectionId), totalLength, infoHash,
                          transactionBits, EncodeAnnounceReply(drawn, reply));
      && r.Announced?
      && |r.sent| == 2
      && r.client == c.(connectionId := connectionId, transactionId := drawn)
      && r.reply == reply
  {
    ConnectReplyAccepted(c, connectionId);
    var connected := c.(connectionId := connectionId);
    var built := MakeAnnouncePacket(connected, totalLength, infoHash, transactionBits);
    AnnounceReplyAccepted(built.client, reply);
  }

  // ---------------------------------------------------------------------
  // Peer connections

  /** A peer connection as the event loop sees it: a stable handle, here its index in the tracker's list. */
  type Handle = nat

  /** The event loop's bookkeeping: its two lists, and the peers whose handshake was scheduled, in order. */
  datatype Loop = Loop(waitingForRead: seq<Handle>, waitingForWrite: seq<Handle>, handshakes: seq<Handle>)

  /**
   * Before the loop: one connection per peer of the tracker's list, its
   * handshake scheduled and the connection put in waiting_for_read. A
   * failed connect is printed and ignored, so it changes nothing here.
   */
  function SetUpPeers(peers: seq<PeerAddress>): (l: Loop)
    ensures |l.waitingForRead| == |peers|
    ensures forall i :: 0 <= i < |peers| ==> l.waitingForRead[i] == i
    ensures l.handshakes == l.waitingForRead && l.waitingForWrite == []
  {
    if |peers| == 0 then Loop([], [], [])
    else
      var l := SetUpPeers(peers[..|peers| - 1]);
      var peer := |peers| - 1;
      Loop(l.waitingForRead + [peer], [], l.handshakes + [peer])
  }

  predicate Distinct(s: seq<Handle>) {
    forall i, j :: 0 <= i < j < |s| ==> s[i] != s[j]
  }

  /**
   * The write-interest update: every peer of waiting_for_read whose out
   * buffer is non-empty and which is not yet in waiting_for_write is
   * appended to it, in waiting_for_read order.
   */
  function AddWriters(read: seq<Handle>, write: seq<Handle>, outBuffer: map<Handle, seq<byte>>): (w: seq<Handle>)
    requires forall p :: p in read ==> p in outBuffer
    ensures |write| <= |w| && w[..|write|] == write
    ensures forall p :: p in read && |outBuffer[p]| > 0 ==> p in w
    ensures forall i :: |write| <= i < |w| ==> w[i] in read && |outBuffer[w[i]]| > 0 && w[i] !in write
    ensures Distinct(w[|write|..])
    ensures Distinct(write) ==> Distinct(w)
  {
    var added := Appended(read, write, outBuffer);
    var w := write + added;
    assert w[..|write|] == write && w[|write|..] == added;
    assert forall p :: p in write ==> p in w;
    DistinctAppend(write, w);
    w
  }

  /**
   * The peers the loop appends: scanning read in order, a peer is
   * appended when its out buffer is non-empty and it is not in
   * waiting_for_write, which by then is seen (the original list plus
   * the peers already appended).
   */
  function Appended(read: seq<Handle>, seen: seq<Handle>, outBuffer: map<Handle, seq<byte>>): (added: seq<Handle>)
    requires forall p :: p in read ==> p in outBuffer
    ensures forall i :: 0 <= i < |added| ==> added[i] in read && |outBuffer[added[i]]| > 0 && added[i] !in seen
    ensures forall p :: p in read && |outBuffer[p]| > 0 && p !in seen ==> p in added
    ensures Distinct(added)
    decreases |read|
  {
    if |read| == 0 then []
    else
      var peer := read[0];
      assert forall p :: p in read ==> p == peer || p in read[1..];
      if |outBuffer[peer]| > 0 && peer !in seen then
        var rest := Appended(read[1..], seen + [peer], outBuffer);
        assert peer !in rest;
        [peer] + rest
      else
        Appended(read[1..], seen, outBuffer)
  }

  /** A distinct list followed by distinct new elements is distinct. */
  lemma DistinctAppend(write: seq<Handle>, w: seq<Handle>)
    requires |write| <= |w| && w[..|write|] == write
    requires Distinct(w[|write|..])
    requires forall i :: |write| <= i < |w| ==> w[i] !in write
    ensures Distinct(write) ==> Distinct(w)
  {
    if Distinct(write) {
      forall i, j | 0 <= i < j < |w| ensures w[i] != w[j] {
        if j < |write| {
          assert w[i] == write[i] && w[j] == write[j];
        } else if i < |write| {
          assert w[i] == write[i];
        } else {
          assert w[i] == w[|write|..][i - |write|] && w[j] == w[|write|..][j - |write|];
        }
      }
    }
  }

  /** s is a subsequence of t: s can be obtained by deleting elements of t. */
  predicate IsSubsequence(s: seq<Handle>, t: seq<Handle>)
    decreases |t|
  {
    if |s| == 0 then true
    else if |t| == 0 then false
    else if s[0] == t[0] then IsSubsequence(s[1..], t[1..])
    else IsSubsequence(s, t[1..])
  }

  /** The peers the update adds appear in waiting_for_read order. */
  lemma AddedInReadOrder(read: seq<Handle>, write: seq<Handle>, outBuffer: map<Handle, seq<byte>>)
    requires forall p :: p in read ==> p in outBuffer
    ensures IsSubsequence(AddWriters(read, write, outBuffer)[|write|..], read)
  {
    var w := AddWriters(read, write, outBuffer);
    assert w[|write|..] == Appended(read, write, outBuffer);
    AppendedInOrder(read, write, outBuffer);
  }

  lemma {:induction false} AppendedInOrder(read: seq<Handle>, seen: seq<Handle>, outBuffer: map<Handle, seq<byte>>)
    requires forall p :: p in read ==> p in outBuffer
    ensures IsSubsequence(Appended(read, seen, outBuffer), read)
    decreases |read|
  {
    if |read| > 0 {
      var peer := read[0];
      if |outBuffer[peer]| > 0 && peer !in seen {
        AppendedInOrder(read[1..], seen + [peer], outBuffer);
        assert ([peer] + Appended(read[1..], seen + [peer], outBuffer))[1..] == Appended(read[1..], seen + [peer], outBuffer);
      } else {
        AppendedInOrder(read[1..], seen, outBuffer);
        SubsequenceOfTail(Appended(read, seen, outBuffer), read);
      }
    }
  }

  /** A subsequence of the tail of t is a subsequence of t. */
  lemma {:induction false} SubsequenceOfTail(s: seq<Handle>, t: seq<Handle>)
    requires |t| > 0 && IsSubsequence(s, t[1..])
    ensures IsSubsequence(s, t)
    decreases |t|, 0
  {
    if |s| > 0 && s[0] == t[0] {
      SubsequenceDropHead(s, t[1..]);
    }
  }

  /** Dropping the first element of a subsequence leaves a subsequence. */
  lemma {:induction false} SubsequenceDropHead(s: seq<Handle>, t: seq<Handle>)
    requires |s| > 0 && IsSubsequence(s, t)
    ensures IsSubsequence(s[1..], t)
    decreases |t|, 1
  {
    if s[0] == t[0] {
      SubsequenceOfTail(s[1..], t);
    } else {
      SubsequenceDropHead(s, t[1..]);
      SubsequenceOfTail(s[1..], t);
    }
  }

  /** Once every pending peer is in waiting_for_write, the update adds nothing. */
  lemma NothingToAdd(read: seq<Handle>, write: seq<Handle>, outBuffer: map<Handle, seq<byte>>)
    requires forall p :: p in read ==> p in outBuffer
    requires forall p :: p in read && |outBuffer[p]| > 0 ==> p in write
    ensures AddWriters(read, write, outBuffer) == write
  {
    NoneAppended(read, write, outBuffer);
    assert write + [] == write;
  }

  lemma {:induction false} NoneAppended(read: seq<Handle>, seen: seq<Handle>, outBuffer: map<Handle, seq<byte>>)
    requires forall p :: p in read ==> p in outBuffer
    requires forall p :: p in read && |outBuffer[p]| > 0 ==> p in seen
    ensures Appended(read, seen, outBuffer) == []
    decreases |read|
  {
    if |read| > 0 {
      assert forall p :: p in read[1..] ==> p in read;
      NoneAppended(read[1..], seen, outBuffer);
    }
  }

  /** Running the update twice with the same buffers is the same as running it once. */
  lemma AddWritersIdempotent(read: seq<Handle>, write: seq<Handle>, outBuffer: map<Handle, seq<byte>>)
    requires forall p :: p in read ==> p in outBuffer
    ensures AddWriters(read, AddWriters(read, write, outBuffer), outBuffer) == AddWriters(read, write, outBuffer)
  {
    NothingToAdd(read, AddWriters(read, write, outBuffer), outBuffer);
  }
}

=== FILE: struct.dfy ===
/**
 * The client's pack_packet / unpack_packet helpers: Python's struct module
 * restricted to big-endian ('>') formats over the codes the client uses.
 * A failed pack or unpack (wrong argument count, value out of range, or a
 * byte string whose length differs from the format size) yields None.
 */
module Struct {
  import opened Wrappers
  import opened BigEndian

  /** struct codes: 'h' int16, 'H' uint16, 'i' int32, 'q' int64. */
  datatype Code = Int16 | UInt16 | Int32 | Int64

  function Width(c: Code): nat {
    match c
    case Int16 => 2
    case UInt16 => 2
    case Int32 => 4
    case Int64 => 8
  }

  /** The values struct accepts for a code. */
  predicate Fits(c: Code, v: int) {
    match c
    case UInt16 => 0 <= v < Pow256(2)
    case _ => FitsSigned(v, Width(c))
  }

  function EncodeField(c: Code, v: int): (s: seq<byte>)
    requires Fits(c, v)
    ensures |s| == Width(c)
  {
    match c
    case UInt16 => EncodeUnsigned(v, 2)
    case _ => EncodeSigned(v, Width(c))
  }

  function DecodeField(c: Code, s: seq<byte>): (v: int)
    requires |s| == Width(c)
    ensures Fits(c, v)
  {
    match c
    case UInt16 => DecodeUnsigned(s)
    case _ => DecodeSigned(s)
  }

  lemma DecodeEncodeField(c: Code, v: int)
    requires Fits(c, v)
    ensures DecodeField(c, EncodeField(c, v)) == v
  {
    if c == UInt16 { DecodeEncodeUnsigned(v, 2); } else { DecodeEncodeSigned(v, Width(c)); }
  }

  lemma EncodeDecodeField(c: Code, s: seq<byte>)
    requires |s| == Width(c)
    ensures EncodeField(c, DecodeField(c, s)) == s
  {
    if c == UInt16 { EncodeDecodeUnsigned(s); } else { EncodeDecodeSigned(s); }
  }

  /** struct.calcsize: the packed size of a format. */
  function Size(fmt: seq<Code>): nat {
    if |fmt| == 0 then 0 else Width(fmt[0]) + Size(fmt[1..])
  }

  /** The field of code c starting at byte offset off. */
  function FieldAt(s: seq<byte>, off: nat, c: Code): int
    requires off + Width(c) <= |s|
  {
    DecodeField(c, s[off..off + Width(c)])
  }

  /** pack_packet(format, *args). */
  function Pack(fmt: seq<Code>, args: seq<int>): (r: Option<seq<byte>>)
    ensures r.Some? <==> |args| == |fmt| && forall i :: 0 <= i < |fmt| ==> Fits(fmt[i], args[i])
    ensures r.Some? ==> |r.value| == Size(fmt)
  {
    if |fmt| != |args| then None
    else if |fmt| == 0 then Some([])
    else if !Fits(fmt[0], args[0]) then None
    else
      match Pack(fmt[1..], args[1..])
      case None =>
        assert !forall i :: 0 <= i < |fmt| ==> Fits(fmt[i], args[i]) by {
          var j :| 0 <= j < |fmt| - 1 && !Fits(fmt[1..][j], args[1..][j]);
          assert !Fits(fmt[j + 1], args[j + 1]);
        }
        None
      case Some(rest) => Some(EncodeField(fmt[0], args[0]) + rest)
  }

  /** unpack_packet(format, packet). */
  function Unpack(fmt: seq<Code>, packet: seq<byte>): (r: Option<seq<int>>)
    ensures r.Some? <==> |packet| == Size(fmt)
    ensures r.Some? ==> |r.value| == |fmt| && forall i :: 0 <= i < |fmt| ==> Fits(fmt[i], r.value[i])
  {
    if |fmt| == 0 then (if |packet| == 0 then Some([]) else None)
    else if |packet| < Width(fmt[0]) then None
    else
      var w := Width(fmt[0]);
      match Unpack(fmt[1..], packet[w..])
      case None => None
      case Some(rest) =>
        var vs := [DecodeField(fmt[0], packet[..w])] + rest;
        assert forall i :: 1 <= i < |fmt| ==> Fits(fmt[i], vs[i]) by {
          forall i | 1 <= i < |fmt| ensures Fits(fmt[i], vs[i]) {
            assert fmt[i] == fmt[1..][i - 1];
          }
        }
        Some(vs)
  }

  /** A non-empty packet is its first field followed by the rest of the format. */
  lemma PackCons(fmt: seq<Code>, args: seq<int>)
    requires Pack(fmt, args).Some? && |fmt| > 0
    ensures Fits(fmt[0], args[0]) && Pack(fmt[1..], args[1..]).Some?
    ensures Pack(fmt, args).value == EncodeField(fmt[0], args[0]) + Pack(fmt[1..], args[1..]).value
  {
  }

  /** Unpacking a packed packet gives the arguments back. */
  lemma {:induction false} UnpackPack(fmt: seq<Code>, args: seq<int>)
    requires Pack(fmt, args).Some?
    ensures Unpack(fmt, Pack(fmt, args).value) == Some(args)
  {
    if |fmt| > 0 {
      PackCons(fmt, args);
      var w := Width(fmt[0]);
      var head := EncodeField(fmt[0], args[0]);
      var rest := Pack(fmt[1..], args[1..]).value;
      var packet := head + rest;
      assert packet[..w] == head;
      assert packet[w..] == rest;
      DecodeEncodeField(fmt[0], args[0]);
      UnpackPack(fmt[1..], args[1..]);
      assert args == [args[0]] + args[1..];
    }
  }

  /** Packing unpacked values gives the bytes back. */
  lemma {:induction false} PackUnpack(fmt: seq<Code>, packet: seq<byte>)
    requires Unpack(fmt, packet).Some?
    ensures Pack(fmt, Unpack(fmt, packet).value) == Some(packet)
  {
    if |fmt| > 0 {
      var w := Width(fmt[0]);
      var vs := Unpack(fmt, packet).value;
      PackUnpack(fmt[1..], packet[w..]);
      assert vs[1..] == Unpack(fmt[1..], packet[w..]).value;
      EncodeDecodeField(fmt[0], packet[..w]);
      assert packet == packet[..w] + packet[w..];
    }
  }

  /** Byte offset of field i of a format: the widths of the fields before it. */
  function Offset(fmt: seq<Code>, i: nat): nat
    requires i <= |fmt|
  {
    if i == 0 then 0 else Offset(fmt, i - 1) + Width(fmt[i - 1])
  }

  lemma {:induction false} OffsetCons(fmt: seq<Code>, i: nat)
    requires 0 < i <= |fmt|
    ensures Offset(fmt, i) == Width(fmt[0]) + Offset(fmt[1..], i - 1)
  {
    if i > 1 {
      OffsetCons(fmt, i - 1);
      assert fmt[1..][i - 2] == fmt[i - 1];
    }
  }

  /** A field keeps its value when bytes are put in front of it. */
  lemma FieldAtShift(head: seq<byte>, rest: seq<byte>, off: nat, c: Code)
    requires off + Width(c) <= |rest|
    ensures FieldAt(head + rest, |head| + off, c) == FieldAt(rest, off, c)
  {
    assert (head + rest)[|head| + off..|head| + off + Width(c)] == rest[off..off + Width(c)];
  }

  lemma {:induction false} OffsetBound(fmt: seq<Code>, i: nat)
    requires i < |fmt|
    ensures Offset(fmt, i) + Width(fmt[i]) <= Size(fmt)
  {
    if i > 0 {
      OffsetCons(fmt, i);
      OffsetBound(fmt[1..], i - 1);
      assert fmt[1..][i - 1] == fmt[i];
    }
  }

  /** Field i of a packed packet sits at Offset(fmt, i) and decodes to args[i]. */
  lemma {:induction false} PackedFieldAt(fmt: seq<Code>, args: seq<int>, i: nat)
    requires Pack(fmt, args).Some?
    requires i < |fmt|
    ensures Offset(fmt, i) + Width(fmt[i]) <= Size(fmt)
    ensures FieldAt(Pack(fmt, args).value, Offset(fmt, i), fmt[i]) == args[i]
  {
    OffsetBound(fmt, i);
    PackCons(fmt, args);
    var head := EncodeField(fmt[0], args[0]);
    var rest := Pack(fmt[1..], args[1..]).value;
    if i == 0 {
      assert (head + rest)[..Width(fmt[0])] == head;
      DecodeEncodeField(fmt[0], args[0]);
    } else {
      PackedFieldAt(fmt[1..], args[1..], i - 1);
      OffsetCons(fmt, i);
      assert fmt[1..][i - 1] == fmt[i];
      FieldAtShift(head, rest, Offset(fmt[1..], i - 1), fmt[i]);
    }
  }

  /** Value i of an unpacked packet is the field at Offset(fmt, i). */
  lemma UnpackedFieldAt(fmt: seq<Code>, packet: seq<byte>, i: nat)
    requires Unpack(fmt, packet).Some?
    requires i < |fmt|
    ensures Offset(fmt, i) + Width(fmt[i]) <= |packet|
    ensures Unpack(fmt, packet).value[i] == FieldAt(packet, Offset(fmt, i), fmt[i])
  {
    PackUnpack(fmt, packet);
    PackedFieldAt(fmt, Unpack(fmt, packet).value, i);
  }

  /**
   * Python slicing s[lo:hi] for non-negative bounds: out-of-range bounds
   * are clamped to the length, so a slice past the end is short, never an error.
   */
  function Slice<T>(s: seq<T>, lo: nat, hi: nat): (r: seq<T>)
    ensures |r| == if lo >= |s| || hi <= lo then 0 else Min(hi, |s|) - lo
    ensures forall k :: 0 <= k < |r| ==> r[k] == s[lo + k]
  {
    var a := Min(lo, |s|);
    var b := Min(Max(hi, lo), |s|);
    s[a..b]
  }

  function Min(a: int, b: int): int { if a <= b then a else b }
  function Max(a: int, b: int): int { if a >= b then a else b }
}

=== FILE: wrappers.dfy ===
/** Optional values used throughout the model. */
module Wrappers {

  /** Some value, or None where the source yields Python's None. */
  datatype Option<+T> = None | Some(value: T)
}
